=== FILE: README.md ===
# Cloudstream plugin packaging, modelled in Dafny

This project models the decision logic of the Gradle plugin that packages a
Cloudstream extension: a `.cs3` archive holding a manifest, the dex output
and optionally the compiled resources, plus, for cross-platform extensions,
a plain `<project>.jar` that is checked for Android imports. The build tools
themselves (D8, ASM, `jdeps`, Gradle's scheduler, zip writing) are opaque
inputs. What remains is modelled as immutable datatypes and pure functions:

- `CompileDex` (compile_dex.dfy): the scan of `compileDex` that finds the one
  class carrying the `CloudstreamPlugin` annotation, as a fold over parsed
  class records whose state is `PluginState` (the in-memory name, the
  `pluginClass` side-channel file, the jar size and the jar copy).
- `PluginName` (plugin_name.dfy): `PluginState` and the two-tier name lookup:
  the in-memory name, else the side-channel file's text, else unset.
- `CompilePluginJar` (compile_plugin_jar.dfy): the `CompilePluginJarTask`
  class (name fallback, cross-platform gate, jar copy and size).
- `EnsureJarCompatibility` (jar_compatibility.dfy): the `exec` guard and the
  three-way `checkOutput` classifier of the analyzer's report.
- `Tasks` (tasks.dfy): what `registerTasks` decides: root task registration,
  the ad-hoc `compilePluginJar`, the audit's jar, `make`'s dependencies,
  archive name, entries and resource filter, and one packaging run end to end.
- `LibraryExtensionCompat` (library_extension_compat.dfy): the accessors over
  the `BaseExtension` / `LibraryExtension` / other shapes of `android`.
- `Base` and `Text`: `Option`/`Result`/`Run` (a run that threw keeps the
  effects made before the throw), and Kotlin's `trim()`, `in`,
  `replace(Char, Char)` and `Int.toString()`.

Thrown exceptions are `Err(message)` or `Aborted(state, message)` carrying the
source's message text. Where the code behaves in a way a reader may not expect,
the model follows the code:

- On a second plugin annotation the side-channel file already holds the first
  detected name, because the file is written before the `require` of the
  next marker fails. So a failed scan still leaves a name in the file.
- A name set in the build script is never checked against the annotation.
  `compileDex` tests only its own property, so with one marker the manifest
  still carries the build script's name (`Tasks.PackagePresetNameWins`).
- With no annotation the entry class is not necessarily unset. `make` reads
  back whatever an earlier build left in the side-channel file
  (`Tasks.PackageWithoutMarker`).
- The name fallback of `compilePluginJar` runs even when cross-platform support
  is off, because it comes before the gate.

## Model

| member | source | states |
|---|---|---|
| `CompileDex.ScanAnnotations` | src/main/kotlin/com/lagradost/cloudstream3/gradle/tasks/CompileDexTask.kt:93-103 | Over one class's annotations: no marker leaves the state alone; a marker while a name is held aborts with the one-plugin message before any write; one marker records the dotted name; a second marker aborts after the first was recorded |
| `CompileDex.ScanClasses` | src/main/kotlin/com/lagradost/cloudstream3/gradle/tasks/CompileDexTask.kt:87-104 | Over all classes, by total marker count: 0 leaves the state unchanged, 1 records the first marked class, 2 or more aborts with the file holding the first marked class's name; a preset name aborts at the first marker |
| `CompileDex.DottedName` | src/main/kotlin/com/lagradost/cloudstream3/gradle/tasks/CompileDexTask.kt:99 | The detected name has the internal name's length, turns every `/` into `.`, keeps every other character, and contains no `/` |
| `CompileDex.MarkedIffAnnotated` | src/main/kotlin/com/lagradost/cloudstream3/gradle/tasks/CompileDexTask.kt:93-94 | Both the visible and the invisible annotation lists are searched, a class counts as marked iff the exact descriptor is in one of them, and occurrences are counted per annotation |
| `CompileDex.SameClassTwiceFails` | src/main/kotlin/com/lagradost/cloudstream3/gradle/tasks/CompileDexTask.kt:93-97 | A single class with the marker in both lists fails the one-plugin rule, after recording its own name |
| `CompileDex.MarkerCountPermutation` | src/main/kotlin/com/lagradost/cloudstream3/gradle/tasks/CompileDexTask.kt:87 | The number of markers is the same for any ordering of the class files |
| `CompileDex.ScanOutcomes` | src/main/kotlin/com/lagradost/cloudstream3/gradle/tasks/CompileDexTask.kt:87-104 | Starting unnamed: success iff at most one marker; one marker puts the marked class's dotted name in memory and the same text in the file; two or more give the one-plugin message and leave the first detected name in the file; jar size and jar copy never change |
| `CompileDex.ScanOrderIndependent` | src/main/kotlin/com/lagradost/cloudstream3/gradle/tasks/CompileDexTask.kt:87-104 | With at most one marker, any permutation of the class files gives the same result |
| `CompileDex.FailureDependsOnOrder` | src/main/kotlin/com/lagradost/cloudstream3/gradle/tasks/CompileDexTask.kt:95-101 | With two marked classes, the name left in the file on failure is the first one visited, so it depends on the order |
| `PluginName.ResolveName` | src/main/kotlin/com/lagradost/cloudstream3/gradle/tasks/CompilePluginJarTask.kt:32-37 | Reference definition of the lookup: a held name is kept; an unset name takes the file's text, or stays unset when there is no file |
| `PluginName.WithResolvedName` | src/main/kotlin/com/lagradost/cloudstream3/gradle/tasks/CompilePluginJarTask.kt:32-37 | The lookup only changes the in-memory name; file, jar size and jar copy are untouched |
| `PluginName.ResolveNameTiers` | src/main/kotlin/com/lagradost/cloudstream3/gradle/tasks/Tasks.kt:141-146 | A name results iff one of the two tiers holds one, and the result is always one of the tiers |
| `PluginName.WithResolvedNameIdempotent` | src/main/kotlin/com/lagradost/cloudstream3/gradle/tasks/Tasks.kt:141-146 | Doing the lookup again, as `make` does after `compilePluginJar`, changes nothing |
| `CompilePluginJar.CompileJar` | src/main/kotlin/com/lagradost/cloudstream3/gradle/tasks/CompilePluginJarTask.kt:31-47 | The resulting name is the lookup's, whether or not cross-platform support is on; the file is never written; support off leaves jar copy and size alone; support on makes the copy equal the input jar and the size its length |
| `CompilePluginJar.SizeMatchesTarget` | src/main/kotlin/com/lagradost/cloudstream3/gradle/tasks/CompilePluginJarTask.kt:44-45 | If the recorded size matched the target before, it matches the target's length after |
| `CompilePluginJar.CompileJarIdempotent` | src/main/kotlin/com/lagradost/cloudstream3/gradle/tasks/CompilePluginJarTask.kt:44-45 | A second run on an unchanged input jar yields the same target content, size and name |
| `EnsureJarCompatibility.Exec` | src/main/kotlin/com/lagradost/cloudstream3/gradle/tasks/EnsureJarCompatibilityTask.kt:25-37 | Skipped iff cross-platform support is off; a missing jar fails iff support is on, with a message containing the jar's absolute path; otherwise the analyzer runs on that path and its report is kept |
| `EnsureJarCompatibility.TrimmedReport` | src/main/kotlin/com/lagradost/cloudstream3/gradle/tasks/EnsureJarCompatibilityTask.kt:40-43 | The trimmed report is empty iff the raw report is all whitespace, and contains `android.` iff the raw report does |
| `EnsureJarCompatibility.CheckOutput` | src/main/kotlin/com/lagradost/cloudstream3/gradle/tasks/EnsureJarCompatibilityTask.kt:39-49 | In terms of the raw report: a warning iff blank, the compatibility error iff it contains `android.`, success iff neither. The three cases are exclusive and exhaustive |
| `EnsureJarCompatibility.Audit` | src/main/kotlin/com/lagradost/cloudstream3/gradle/tasks/EnsureJarCompatibilityTask.kt:25-49 | The Gradle task as wired: does nothing iff cross-platform is off; a missing jar fails with its path; otherwise warns, fails or passes exactly as the report dictates |
| `EnsureJarCompatibility.ExitStatusIgnored` | src/main/kotlin/com/lagradost/cloudstream3/gradle/tasks/EnsureJarCompatibilityTask.kt:34 | The analyzer's exit status never changes the outcome |
| `Text.Trim` | src/main/kotlin/com/lagradost/cloudstream3/gradle/tasks/EnsureJarCompatibilityTask.kt:40 | `trim()` returns the infix after the leading whitespace, with only whitespace after it, starting and ending with a non-whitespace character |
| `Text.ContainsTrimmed` | src/main/kotlin/com/lagradost/cloudstream3/gradle/tasks/EnsureJarCompatibilityTask.kt:43 | Trimming neither creates nor removes an occurrence of a pattern with non-whitespace ends |
| `Text.TrimEmptyIff` | src/main/kotlin/com/lagradost/cloudstream3/gradle/tasks/EnsureJarCompatibilityTask.kt:42 | The trimmed report is empty exactly when the report is all whitespace |
| `Tasks.RegisterPluginsJson` | src/main/kotlin/com/lagradost/cloudstream3/gradle/tasks/Tasks.kt:24-32 | When no `makePluginsJson` task exists, exactly one is appended, always out of date and writing `plugins.json`; when one exists, the task list is returned unchanged |
| `Tasks.RegisteredOnce` | src/main/kotlin/com/lagradost/cloudstream3/gradle/tasks/Tasks.kt:24-32 | After any positive number of plugin projects register, the root holds exactly one `makePluginsJson` task |
| `Tasks.ReadBackIsLookup` | src/main/kotlin/com/lagradost/cloudstream3/gradle/tasks/Tasks.kt:93-99 | The name fallback written out in `registerTasks`, used by both `compilePluginJar` and `make`, equals the reference lookup and gives the same name as `CompilePluginJarTask` |
| `Tasks.CompilePluginJarAction` | src/main/kotlin/com/lagradost/cloudstream3/gradle/tasks/Tasks.kt:89-118 | The name is the lookup's; the file is untouched; without cross-platform support or without a jar task nothing else changes; otherwise `<project>.jar` becomes the jar and the size its length |
| `Tasks.CompilePluginJarImplementationsAgree` | src/main/kotlin/com/lagradost/cloudstream3/gradle/tasks/Tasks.kt:89-118 | The ad-hoc task and the `CompilePluginJarTask` class produce the same state whenever a jar exists |
| `Tasks.AuditSeesCopiedJar` | src/main/kotlin/com/lagradost/cloudstream3/gradle/tasks/Tasks.kt:120-129 | Once `compilePluginJar` copied a jar, the audit of `<project>.jar` finds it, and warns, fails or passes exactly as the report dictates |
| `Tasks.MakeDependencies` | src/main/kotlin/com/lagradost/cloudstream3/gradle/tasks/Tasks.kt:132-163 | `make` always depends on `compileDex`, on `compilePluginJar` iff cross-platform, on `compileResources` iff resources are required, and on nothing else |
| `Tasks.MakeArchiveName` | src/main/kotlin/com/lagradost/cloudstream3/gradle/tasks/Tasks.kt:164-168 | The archive is `<build>/<project>.cs3` with no version part and no file timestamps; distinct project names give distinct archive names |
| `Tasks.WithoutEmbeddedManifest` | src/main/kotlin/com/lagradost/cloudstream3/gradle/tasks/Tasks.kt:81-83 | An entry is kept iff it is an input entry whose path is not `AndroidManifest.xml`; each kept entry appears as often as in the input, and an input without the manifest passes through unchanged |
| `Tasks.ResourceEntries` | src/main/kotlin/com/lagradost/cloudstream3/gradle/tasks/Tasks.kt:76-86 | Nothing is merged when `res.apk` does not exist; otherwise exactly its entries other than `AndroidManifest.xml` |
| `Tasks.PrepareMake` | src/main/kotlin/com/lagradost/cloudstream3/gradle/tasks/Tasks.kt:141-156 | The manifest's entry class is the lookup's result, and the state after `make`'s first action is the looked-up state |
| `Tasks.MakeEntries` | src/main/kotlin/com/lagradost/cloudstream3/gradle/tasks/Tasks.kt:139-163 | The archive holds `manifest.json` and `classes.dex` first; nothing else when the extension does not require resources; after them, an entry appears iff the extension requires resources, `res.apk` exists, and it holds the entry under a path other than `AndroidManifest.xml` |
| `Tasks.ArchiveContents` | src/main/kotlin/com/lagradost/cloudstream3/gradle/tasks/Tasks.kt:76-163 | In terms of the inputs alone: an entry is in the archive iff it is the manifest, the dex file, or, when the extension requires resources, an entry of an existing `res.apk` that is not its embedded manifest; a `res.apk` left by an earlier build is not merged otherwise |
| `Tasks.PackageFailsIff` | src/main/kotlin/com/lagradost/cloudstream3/gradle/tasks/Tasks.kt:132-146 | Packaging, from `compileDex` through `make`'s first action, fails iff the classes carry two or more markers, whether or not the build script sets a name |
| `Tasks.PackagePresetNameWins` | src/main/kotlin/com/lagradost/cloudstream3/gradle/tasks/Tasks.kt:141-146 | With a name set in the build script and at most one marker, packaging succeeds and the manifest carries the build script's name, not the annotated class |
| `Tasks.PackageWithoutMarker` | src/main/kotlin/com/lagradost/cloudstream3/gradle/tasks/Tasks.kt:132-146 | With no marker and no name set in the build script, the manifest's entry class is whatever an earlier build left in the side-channel file |
| `Tasks.PackageWithOneMarker` | src/main/kotlin/com/lagradost/cloudstream3/gradle/tasks/Tasks.kt:132-146 | With one marker and no name set in the build script, the manifest's entry class is the marked class's dotted name, read back from the file the scan wrote |
| `LibraryExtensionCompat.NewCompat` | src/main/kotlin/com/lagradost/cloudstream3/gradle/LibraryExtensionCompat.kt:18-19 | Construction fails with "Android plugin not found" iff there is no `android` extension |
| `LibraryExtensionCompat.CompileSdkAsWritten` | src/main/kotlin/com/lagradost/cloudstream3/gradle/LibraryExtensionCompat.kt:21-26 | The getter as written: `BaseExtension` gives the configured identifier or fails when unset; `LibraryExtension` always succeeds with `android-` followed by the SDK number's digits, or by `null` when unset; other shapes fail |
| `LibraryExtensionCompat.CompileSdk` | src/main/kotlin/com/lagradost/cloudstream3/gradle/LibraryExtensionCompat.kt:21-26 | `BaseExtension`: the configured identifier, failing when it is unset. `LibraryExtension`: `android-` then digits that parse back to the SDK number. Fails on other shapes. Agrees with the as-written getter wherever it succeeds (see Findings) |
| `LibraryExtensionCompat.MinSdk` | src/main/kotlin/com/lagradost/cloudstream3/gradle/LibraryExtensionCompat.kt:28-33 | For both shapes, the configured level when set and 21 otherwise; fails iff the shape is neither |
| `LibraryExtensionCompat.BuildToolsVersion` | src/main/kotlin/com/lagradost/cloudstream3/gradle/LibraryExtensionCompat.kt:35-40 | Passed through unchanged from either shape; fails iff the shape is neither |
| `LibraryExtensionCompat.FromComponents` | src/main/kotlin/com/lagradost/cloudstream3/gradle/LibraryExtensionCompat.kt:45-48 | Reading through `androidComponents` fails with "LibraryAndroidComponentsExtension not found" iff that extension is absent |
| `LibraryExtensionCompat.Adb` | src/main/kotlin/com/lagradost/cloudstream3/gradle/LibraryExtensionCompat.kt:42-50 | `BaseExtension`'s executable; on `LibraryExtension` the components' one, failing iff the components are absent; fails on other shapes |
| `LibraryExtensionCompat.BootClasspath` | src/main/kotlin/com/lagradost/cloudstream3/gradle/LibraryExtensionCompat.kt:52-60 | Same dispatch for the boot classpath |
| `LibraryExtensionCompat.SdkDirectory` | src/main/kotlin/com/lagradost/cloudstream3/gradle/LibraryExtensionCompat.kt:62-71 | Same dispatch for the SDK directory |
| `LibraryExtensionCompat.Single` | src/main/kotlin/com/lagradost/cloudstream3/gradle/LibraryExtensionCompat.kt:75 | `single()` succeeds iff there is exactly one directory, and fails with Kotlin's empty or more-than-one message otherwise |
| `LibraryExtensionCompat.MainResSrcDir` | src/main/kotlin/com/lagradost/cloudstream3/gradle/LibraryExtensionCompat.kt:73-88 | `BaseExtension`: the single `main` resource directory. `LibraryExtension`: always `<project>/src/main/res`, succeeding iff it exists and otherwise failing with a message that names it. Fails on other shapes |
| `LibraryExtensionCompat.OtherExtensionRejected` | src/main/kotlin/com/lagradost/cloudstream3/gradle/LibraryExtensionCompat.kt:21-88 | On an extension of neither shape, every one of the seven accessors fails |
| `LibraryExtensionCompat.CompileSdkAsWrittenPrintsNull` | src/main/kotlin/com/lagradost/cloudstream3/gradle/LibraryExtensionCompat.kt:24 | On a `LibraryExtension` with no compile SDK, the as-written getter yields `android-null` where the corrected getter fails with "compileSdkVersion not found" |
| `Text.ParseIntToString` | src/main/kotlin/com/lagradost/cloudstream3/gradle/LibraryExtensionCompat.kt:24 | The decimal rendering of the SDK number in the template reads back as the same number |

## Findings

| source | as written | input that shows it | evidently intended | confidence | as-written member | corrected member |
|---|---|---|---|---|---|---|
| src/main/kotlin/com/lagradost/cloudstream3/gradle/LibraryExtensionCompat.kt:24 | On `LibraryExtension`, the nullable `compileSdk` is put into a string template with no null check | a `LibraryExtension` whose `compileSdk` is unset gives `android-null` | fail with "compileSdkVersion not found", as the `BaseExtension` branch does one line above | medium; not executed | `LibraryExtensionCompat.CompileSdkAsWrittenPrintsNull` | `LibraryExtensionCompat.CompileSdk` |

`LibraryExtensionCompat.CompileSdkAsWritten` models the getter as written.
The corrected `CompileSdk` differs from it only on that input.

## Left out

- D8 dex conversion (`DexArchiveBuilder`, desugaring against the boot classpath): a foreign compiler. The scan is modelled as running on the class records after conversion.
- ASM class-file parsing: each class is given as an already parsed `ClassRecord`. A missing annotation list (`orEmpty()`) is an empty sequence.
- Running `jdeps` and capturing its output: the exit status and the report text are inputs (`AnalyzerRun`).
- Gradle machinery: lazy providers, `dependsOn` scheduling, `afterEvaluate`, up-to-date checks, `@SkipWhenEmpty`, and the `genSources`, `cleanCache` and `deployWithAdb` registrations. Only the decisions are kept: dependency sets, the `alwaysOutOfDate` flag of `makePluginsJson`, and the archive settings.
- Zip byte layout, file copying and file lengths: files are byte sequences and a length is the sequence's length. Archive entries are path and content pairs. `extension.fileSize`, the length of the written archive, is not modelled.
- Manifest JSON rendering (`makeManifest` is not part of this model, and the null-dropping generator is Groovy's): only the manifest's entry class is modelled.
- `MakePluginsJsonTask`: it writes a given string to a file, which is I/O only.
- `CompileResourcesTask`, `GenSourcesTask`, `CleanCacheTask` and `DeployWithAdbTask` are not part of this model. The ADB deployment is left out too.
- Concurrency between plugin projects: registrations are modelled one after the other.
- Logging: lifecycle and warning lines are not modelled. `checkOutput`'s warning and success texts are kept as verdict payloads.
- Tasks.CompilePluginJarAction: `singleFile` throwing when `createFullJarDebug` has other than one output is not modelled. Its `None` input covers both a missing jar task and the unreachable "Could not find JAR file!" branch, and both leave the state alone.
- CompilePluginJar.CompileJar: a missing input jar, which makes `copyTo` throw, is not modelled. Gradle validates `@InputFile` before the action runs.
- EnsureJarCompatibility.Exec: the case where cross-platform is on but no jar is configured (`jarFile.get()` throwing) is not modelled. `registerTasks` always sets the jar when the flag is on.
- CompileDex.ScanOrderIndependent: stated for at most one marker only. With two markers the file's content depends on the order (`CompileDex.FailureDependsOnOrder`).
- The order of `compileDex` and `compilePluginJar` is not fixed by any declared dependency. `Tasks.Package` runs the scan first. If `compilePluginJar` ran first, it could read a stale name from an earlier build into the extension.

=== FILE: base.dfy ===
/** Shared shapes: Kotlin's nullable values, failing getters and tasks that
    throw after part of their side effects have already happened. */
module Base {

  /** A Kotlin nullable value (`T?`). */
  datatype Option<+T> = None | Some(value: T) {

    /** `this ?: default` */
    function GetOr(default: T): T {
      match this
      case Some(v) => v
      case None => default
    }
  }

  /** A value, or the message of the exception (`error(...)`, `GradleException`,
      `require`) that was thrown instead of producing it. */
  datatype Result<+T> = Ok(value: T) | Err(message: string)

  /** The outcome of a task action that works on a state of type `S`.
      When the action throws, the effects it made before the throw (files
      it wrote, properties it set) are still visible, so an aborted run
      carries a state too. */
  datatype Run<+S> = Completed(state: S) | Aborted(state: S, message: string)

  /** File contents. */
  newtype byte = x: int | 0 <= x < 256

  type Bytes = seq<byte>
}

=== FILE: compile_dex.dfy ===
/** The entry-class detection of the `compileDex` task: after the classes
    have been converted to dex (a foreign compiler, not modelled), every
    class's visible and invisible annotations are searched for the
    `CloudstreamPlugin` marker; the marked class's name is written to the
    side-channel file and kept in memory, and a second marker anywhere
    fails the Gradle task. */
module CompileDex {
  import opened Base
  import opened Text
  import opened PluginName

  /** The descriptor of the marker annotation. */
  const PluginAnnotation := "Lcom/lagradost/cloudstream3/plugins/CloudstreamPlugin;"

  const OnlyOnePluginClass := "Only 1 active plugin class per project is supported"

  /** A parsed class file: its internal name (`com/example/Foo`) and the
      descriptors of its annotations; a missing annotation list is empty. */
  datatype ClassRecord = ClassRecord(
    name: string,
    visibleAnnotations: seq<string>,
    invisibleAnnotations: seq<string>)

  /** The annotations the scan visits for one class, in visiting order. */
  function Annotations(c: ClassRecord): seq<string> {
    c.visibleAnnotations + c.invisibleAnnotations
  }

  /** Number of marker annotations in a list of descriptors. */
  function CountMarkers(descs: seq<string>): nat {
    if |descs| == 0 then 0
    else (if descs[0] == PluginAnnotation then 1 else 0) + CountMarkers(descs[1..])
  }

  function Occurrences(c: ClassRecord): nat {
    CountMarkers(Annotations(c))
  }

  /** Number of marker annotations over all classes. */
  function MarkerCount(classes: seq<ClassRecord>): nat {
    if |classes| == 0 then 0 else Occurrences(classes[0]) + MarkerCount(classes[1..])
  }

  /** The first class, in visiting order, that carries a marker. */
  function FirstMarked(classes: seq<ClassRecord>): (c: ClassRecord)
    requires MarkerCount(classes) > 0
    ensures c in classes && Occurrences(c) > 0
  {
    if Occurrences(classes[0]) > 0 then classes[0] else FirstMarked(classes[1..])
  }

  /** The fully-qualified name: the internal name with `/` read as `.`. */
  function DottedName(internalName: string): (r: string)
    ensures |r| == |internalName|
    ensures '/' !in r
    ensures forall k :: 0 <= k < |r| && internalName[k] != '/' ==> r[k] == internalName[k]
    ensures forall k :: 0 <= k < |r| && internalName[k] == '/' ==> r[k] == '.'
  {
    var r := ReplaceChar(internalName, '/', '.');
    assert forall k :: 0 <= k < |r| ==> r[k] != '/';
    r
  }

  /** The effect of detecting the marker on a class called `className`:
      the side-channel file (when one is configured) and the in-memory
      name both receive the dotted name. */
  function Detect(st: PluginState, className: string, classFileSet: bool): PluginState {
    var detected := DottedName(className);
    st.(pluginClassFile := if classFileSet then Some(detected) else st.pluginClassFile,
        pluginClassName := Some(detected))
  }

  /** The inner loop over one class's annotations. A marker met while a
      name is already held fails before anything is written. */
  function ScanAnnotations(className: string, descs: seq<string>, st: PluginState, classFileSet: bool)
    : (r: Run<PluginState>)
    ensures CountMarkers(descs) == 0 ==> r == Completed(st)
    ensures CountMarkers(descs) > 0 && st.pluginClassName.Some? ==> r == Aborted(st, OnlyOnePluginClass)
    ensures CountMarkers(descs) == 1 && st.pluginClassName.None? ==>
              r == Completed(Detect(st, className, classFileSet))
    ensures CountMarkers(descs) >= 2 && st.pluginClassName.None? ==>
              r == Aborted(Detect(st, className, classFileSet), OnlyOnePluginClass)
  {
    if |descs| == 0 then Completed(st)
    else if descs[0] != PluginAnnotation then ScanAnnotations(className, descs[1..], st, classFileSet)
    else if st.pluginClassName.Some? then Aborted(st, OnlyOnePluginClass)
    else ScanAnnotations(className, descs[1..], Detect(st, className, classFileSet), classFileSet)
  }

  /** The outer loop over all classes; the scan stops at the first failure. */
  function ScanClasses(classes: seq<ClassRecord>, st: PluginState, classFileSet: bool)
    : (r: Run<PluginState>)
    ensures MarkerCount(classes) == 0 ==> r == Completed(st)
    ensures MarkerCount(classes) > 0 && st.pluginClassName.Some? ==> r == Aborted(st, OnlyOnePluginClass)
    ensures MarkerCount(classes) == 1 && st.pluginClassName.None? ==>
              r == Completed(Detect(st, FirstMarked(classes).name, classFileSet))
    ensures MarkerCount(classes) >= 2 && st.pluginClassName.None? ==>
              r == Aborted(Detect(st, FirstMarked(classes).name, classFileSet), OnlyOnePluginClass)
  {
    if |classes| == 0 then Completed(st)
    else
      match ScanAnnotations(classes[0].name, Annotations(classes[0]), st, classFileSet)
      case Aborted(s, msg) => Aborted(s, msg)
      case Completed(s) => ScanClasses(classes[1..], s, classFileSet)
  }

  lemma {:induction false} CountMarkersAppend(a: seq<string>, b: seq<string>)
    ensures CountMarkers(a + b) == CountMarkers(a) + CountMarkers(b)
  {
    if |a| == 0 {
      assert a + b == b;
    } else {
      assert (a + b)[0] == a[0];
      assert (a + b)[1..] == a[1..] + b;
      CountMarkersAppend(a[1..], b);
    }
  }

  lemma {:induction false} CountMarkersPositive(descs: seq<string>)
    ensures CountMarkers(descs) > 0 <==> PluginAnnotation in descs
  {
    if |descs| > 0 {
      CountMarkersPositive(descs[1..]);
      assert descs == [descs[0]] + descs[1..];
    }
  }

  /** Both annotation lists are searched, and every marker counts on its
      own: a class marked in both lists holds two occurrences. */
  lemma MarkedIffAnnotated(c: ClassRecord)
    ensures Occurrences(c) == CountMarkers(c.visibleAnnotations) + CountMarkers(c.invisibleAnnotations)
    ensures Occurrences(c) > 0 <==>
              (PluginAnnotation in c.visibleAnnotations || PluginAnnotation in c.invisibleAnnotations)
  {
    CountMarkersAppend(c.visibleAnnotations, c.invisibleAnnotations);
    CountMarkersPositive(c.visibleAnnotations);
    CountMarkersPositive(c.invisibleAnnotations);
  }

  /** A single class that carries the marker twice (for instance once in
      each list) already breaks the one-plugin rule. */
  lemma SameClassTwiceFails(c: ClassRecord, st: PluginState, classFileSet: bool)
    requires PluginAnnotation in c.visibleAnnotations && PluginAnnotation in c.invisibleAnnotations
    requires st.pluginClassName.None?
    ensures ScanClasses([c], st, classFileSet) == Aborted(Detect(st, c.name, classFileSet), OnlyOnePluginClass)
  {
    CountMarkersAppend(c.visibleAnnotations, c.invisibleAnnotations);
    CountMarkersPositive(c.visibleAnnotations);
    CountMarkersPositive(c.invisibleAnnotations);
    assert MarkerCount([c]) == Occurrences(c) + MarkerCount([]);
  }

  /** Taking one class out of a sequence removes it from the multiset. */
  lemma RemoveOneMultiset(b: seq<ClassRecord>, k: int)
    requires 0 <= k < |b|
    ensures multiset(b[..k] + b[k + 1..]) == multiset(b) - multiset{b[k]}
  {
    var front, back := b[..k], b[k + 1..];
    assert b == front + [b[k]] + back;
    assert multiset(b) == multiset(front) + multiset{b[k]} + multiset(back);
  }

  /** Taking one class out of a sequence removes its markers from the count. */
  lemma {:induction false} RemoveOneCount(b: seq<ClassRecord>, k: int)
    requires 0 <= k < |b|
    ensures MarkerCount(b) == Occurrences(b[k]) + MarkerCount(b[..k] + b[k + 1..])
    decreases k
  {
    var rest := b[..k] + b[k + 1..];
    if k == 0 {
      assert rest == b[1..];
    } else {
      RemoveOneCount(b[1..], k - 1);
      assert rest[0] == b[0];
      assert rest[1..] == b[1..][..k - 1] + b[1..][k..];
    }
  }

  /** The number of markers does not depend on the order of the classes. */
  lemma {:induction false} MarkerCountPermutation(a: seq<ClassRecord>, b: seq<ClassRecord>)
    requires multiset(a) == multiset(b)
    ensures MarkerCount(a) == MarkerCount(b)
    decreases |a|
  {
    if |a| == 0 {
      assert |b| == |multiset(b)| == 0;
    } else {
      var x := a[0];
      assert x in multiset(a);
      assert x in b;
      var k :| 0 <= k < |b| && b[k] == x;
      var rest := b[..k] + b[k + 1..];
      RemoveOneMultiset(b, k);
      RemoveOneCount(b, k);
      assert a == [x] + a[1..];
      assert multiset(a) == multiset{x} + multiset(a[1..]);
      assert multiset(a[1..]) == multiset(a) - multiset{x};
      assert multiset(a[1..]) == multiset(rest);
      MarkerCountPermutation(a[1..], rest);
    }
  }

  lemma {:induction false} OccurrencesBounded(classes: seq<ClassRecord>, i: int)
    requires 0 <= i < |classes|
    ensures Occurrences(classes[i]) <= MarkerCount(classes)
  {
    if i > 0 {
      OccurrencesBounded(classes[1..], i - 1);
    }
  }

  /** When only one marker exists, every marked class is the first one. */
  lemma {:induction false} UniqueMarked(classes: seq<ClassRecord>, i: int)
    requires MarkerCount(classes) == 1
    requires 0 <= i < |classes| && Occurrences(classes[i]) > 0
    ensures FirstMarked(classes) == classes[i]
  {
    if i > 0 && Occurrences(classes[0]) == 0 {
      UniqueMarked(classes[1..], i - 1);
    } else if i > 0 {
      OccurrencesBounded(classes[1..], i - 1);
      assert false;
    }
  }

  /** Properties of a scan that starts without a name:
      no marker leaves the state alone; one marker yields the dotted name
      of the marked class, in memory and, when configured, in the file;
      more markers fail, and the file then holds the first detected name. */
  lemma ScanOutcomes(classes: seq<ClassRecord>, st: PluginState, classFileSet: bool)
    requires st.pluginClassName.None?
    ensures ScanClasses(classes, st, classFileSet).Completed? <==> MarkerCount(classes) <= 1
    ensures MarkerCount(classes) == 0 ==> ScanClasses(classes, st, classFileSet) == Completed(st)
    ensures forall i :: 0 <= i < |classes| && MarkerCount(classes) == 1 && Occurrences(classes[i]) > 0 ==>
              && ScanClasses(classes, st, classFileSet).state.pluginClassName == Some(DottedName(classes[i].name))
              && (classFileSet ==> ScanClasses(classes, st, classFileSet).state.pluginClassFile
                                     == ScanClasses(classes, st, classFileSet).state.pluginClassName)
    ensures MarkerCount(classes) >= 2 ==>
              && ScanClasses(classes, st, classFileSet).message == OnlyOnePluginClass
              && (classFileSet ==> ScanClasses(classes, st, classFileSet).state.pluginClassFile
                                     == Some(DottedName(FirstMarked(classes).name)))
    ensures ScanClasses(classes, st, classFileSet).state.jarFileSize == st.jarFileSize
    ensures ScanClasses(classes, st, classFileSet).state.portableJar == st.portableJar
  {
    forall i | 0 <= i < |classes| && MarkerCount(classes) == 1 && Occurrences(classes[i]) > 0 {
      UniqueMarked(classes, i);
    }
  }

  /** With exactly one marker, the order in which the class files are
      visited does not matter. */
  lemma ScanOrderIndependent(a: seq<ClassRecord>, b: seq<ClassRecord>, st: PluginState, classFileSet: bool)
    requires multiset(a) == multiset(b)
    requires MarkerCount(a) <= 1
    ensures ScanClasses(a, st, classFileSet) == ScanClasses(b, st, classFileSet)
  {
    MarkerCountPermutation(a, b);
    if MarkerCount(a) == 1 && st.pluginClassName.None? {
      var c := FirstMarked(a);
      assert c in multiset(b);
      var i :| 0 <= i < |b| && b[i] == c;
      var j :| 0 <= j < |a| && a[j] == c;
      UniqueMarked(a, j);
      UniqueMarked(b, i);
    }
  }

  /** With two markers the file's content does depend on the order: it
      holds whichever marked class was visited first. */
  lemma FailureDependsOnOrder()
    ensures var a := ClassRecord("p/A", [PluginAnnotation], []);
            var b := ClassRecord("p/B", [PluginAnnotation], []);
            var st := PluginState(None, None, None, None);
            && ScanClasses([a, b], st, true).state.pluginClassFile == Some("p.A")
            && ScanClasses([b, a], st, true).state.pluginClassFile == Some("p.B")
  {
    var a := ClassRecord("p/A", [PluginAnnotation], []);
    var b := ClassRecord("p/B", [PluginAnnotation], []);
    assert Annotations(a) == [PluginAnnotation] && Annotations(b) == [PluginAnnotation];
    assert CountMarkers([PluginAnnotation]) == 1 + CountMarkers([]);
    assert Occurrences(a) == 1 && Occurrences(b) == 1;
    assert MarkerCount([a, b]) == 2 by {
      assert [a, b][1..] == [b] && [b][1..] == [];
      assert MarkerCount([b]) == Occurrences(b) + MarkerCount([]);
      assert MarkerCount([a, b]) == Occurrences(a) + MarkerCount([b]);
    }
    assert MarkerCount([b, a]) == 2 by {
      assert [b, a][1..] == [a] && [a][1..] == [];
      assert MarkerCount([a]) == Occurrences(a) + MarkerCount([]);
      assert MarkerCount([b, a]) == Occurrences(b) + MarkerCount([a]);
    }
    assert DottedName("p/A") == "p.A";
    assert DottedName("p/B") == "p.B";
  }
}

=== FILE: compile_plugin_jar.dfy ===
/** The `CompilePluginJarTask` class: recover the plugin's name from the
    side-channel file when it is not known yet, then, with cross-platform
    support, copy the full jar to the target and record its size. */
module CompilePluginJar {
  import opened Base
  import opened PluginName

  /** `compileJar`, with the input jar's bytes given and the target jar held
      in `portableJar`. */
  function CompileJar(hasCrossPlatformSupport: bool, st: PluginState, jarInput: Bytes): (r: PluginState)
    ensures r.pluginClassName == ResolveName(st.pluginClassName, st.pluginClassFile)
    ensures r.pluginClassFile == st.pluginClassFile
    ensures !hasCrossPlatformSupport ==> r.jarFileSize == st.jarFileSize && r.portableJar == st.portableJar
    ensures hasCrossPlatformSupport ==> r.portableJar == Some(jarInput) && r.jarFileSize == Some(|jarInput|)
  {
    var named :=
      if st.pluginClassName.None? then
        if st.pluginClassFile.Some? then st.(pluginClassName := Some(st.pluginClassFile.value)) else st
      else st;
    if !hasCrossPlatformSupport then named
    else named.(portableJar := Some(jarInput), jarFileSize := Some(|jarInput|))
  }

  /** Whatever the jar copy does, the recorded size is that of the target. */
  lemma SizeMatchesTarget(hasCrossPlatformSupport: bool, st: PluginState, jarInput: Bytes)
    requires st.portableJar.Some? ==> st.jarFileSize == Some(|st.portableJar.value|)
    ensures var r := CompileJar(hasCrossPlatformSupport, st, jarInput);
            r.portableJar.Some? ==> r.jarFileSize == Some(|r.portableJar.value|)
  {
  }

  /** Running the Gradle task a second time on the same input jar changes nothing. */
  lemma CompileJarIdempotent(hasCrossPlatformSupport: bool, st: PluginState, jarInput: Bytes)
    ensures var once := CompileJar(hasCrossPlatformSupport, st, jarInput);
            CompileJar(hasCrossPlatformSupport, once, jarInput) == once
  {
  }
}

=== FILE: jar_compatibility.dfy ===
/** The `ensureJarCompatibility` task: when cross-platform support is on it
    runs the module-dependency analyzer (`jdeps --print-module-deps`) on the
    cross-platform jar and classifies the report it printed. The analyzer
    itself is not modelled: its exit status and its report are inputs. */
module EnsureJarCompatibility {
  import opened Text

  const NoOutputWarning := "No output from jdeps! Cannot analyze jar file for Android imports!"

  const AndroidImportsError :=
    "The cross-platform jar file contains Android imports! "
    + "This will cause compatibility issues.\nRemove 'isCrossPlatform = true' or remove the Android imports."

  const CompatibleMessage := "SUCCESS: The cross-platform jar file does not contain Android imports"

  /** The module-name prefix whose presence in the report rejects the jar. */
  const AndroidModulePrefix := "android."

  function MissingJarMessage(absolutePath: string): string {
    "Jar file does not exist: " + absolutePath
  }

  /** The jar the Gradle task is pointed at. */
  datatype Jar = Jar(absolutePath: string, present: bool)

  /** What running the analyzer produced: its exit status and the standard
      output captured into `jdeps-output.txt`. */
  datatype AnalyzerRun = AnalyzerRun(exitStatus: int, report: string)

  datatype ExecOutcome =
    | Skipped
    | MissingJar(message: string)
    | Analyzed(commandLine: seq<string>, report: string)

  /** `exec`: nothing happens without cross-platform support; a missing jar
      fails with its path; otherwise the analyzer runs and its exit status
      is ignored. */
  function Exec(hasCrossPlatformSupport: bool, jar: Jar, analyzer: AnalyzerRun): (r: ExecOutcome)
    ensures !hasCrossPlatformSupport <==> r.Skipped?
    ensures r.MissingJar? <==> hasCrossPlatformSupport && !jar.present
    ensures r.MissingJar? ==> Contains(r.message, jar.absolutePath)
    ensures r.Analyzed? ==> r.report == analyzer.report && jar.absolutePath in r.commandLine
  {
    if !hasCrossPlatformSupport then Skipped
    else if !jar.present then
      var message := MissingJarMessage(jar.absolutePath);
      assert OccursAt(message, jar.absolutePath, |message| - |jar.absolutePath|);
      MissingJar(message)
    else
      var commandLine := ["jdeps", "--print-module-deps", jar.absolutePath];
      assert commandLine[2] == jar.absolutePath;
      Analyzed(commandLine, analyzer.report)
  }

  /** What trimming the report preserves: blankness, and every
      occurrence of the prefix. */
  lemma TrimmedReport(report: string)
    ensures |Trim(report)| == 0 <==> AllWhitespace(report)
    ensures Contains(Trim(report), AndroidModulePrefix) <==> Contains(report, AndroidModulePrefix)
    ensures AllWhitespace(report) ==> !Contains(report, AndroidModulePrefix)
  {
    TrimEmptyIff(report);
    ContainsTrimmed(report, AndroidModulePrefix);
    if AllWhitespace(report) {
      NoPatternInWhitespace(report, AndroidModulePrefix);
    }
  }

  /** The three ways the trimmed report is read. */
  datatype Verdict = NoOutput(warning: string) | AndroidImports(error: string) | Compatible(message: string)

  /** `checkOutput`, stated against the untrimmed report: it is blank,
      or it names an `android.` module, or neither. */
  function CheckOutput(report: string): (v: Verdict)
    ensures v.NoOutput? <==> AllWhitespace(report)
    ensures v.AndroidImports? <==> Contains(report, AndroidModulePrefix)
    ensures v.Compatible? <==> !AllWhitespace(report) && !Contains(report, AndroidModulePrefix)
    ensures v.AndroidImports? ==> v.error == AndroidImportsError
  {
    TrimmedReport(report);
    var output := Trim(report);
    if |output| == 0 then NoOutput(NoOutputWarning)
    else if Contains(output, AndroidModulePrefix) then AndroidImports(AndroidImportsError)
    else Compatible(CompatibleMessage)
  }

  /** How one run of the Gradle task ends. */
  datatype AuditOutcome = NotRun | Failed(message: string) | Warned(message: string) | Passed(message: string)

  /** The whole task as `registerTasks` sets it up: the support flag is the
      project's `isCrossPlatform`, and `checkOutput` is attached as a last
      action exactly when that flag is on, so one flag drives both. */
  function Audit(isCrossPlatform: bool, jar: Jar, analyzer: AnalyzerRun): (r: AuditOutcome)
    ensures !isCrossPlatform <==> r.NotRun?
    ensures isCrossPlatform && !jar.present ==> r == Failed(MissingJarMessage(jar.absolutePath))
    ensures isCrossPlatform && jar.present ==>
              && (r.Warned? <==> AllWhitespace(analyzer.report))
              && (r.Failed? <==> Contains(analyzer.report, AndroidModulePrefix))
              && (r.Passed? <==> !AllWhitespace(analyzer.report) && !Contains(analyzer.report, AndroidModulePrefix))
  {
    match Exec(isCrossPlatform, jar, analyzer)
    case Skipped => NotRun
    case MissingJar(message) => Failed(message)
    case Analyzed(_, report) =>
      match CheckOutput(report)
      case NoOutput(warning) => Warned(warning)
      case AndroidImports(error) => Failed(error)
      case Compatible(message) => Passed(message)
  }

  /** The analyzer's exit status never changes the outcome. */
  lemma ExitStatusIgnored(isCrossPlatform: bool, jar: Jar, report: string, status1: int, status2: int)
    ensures Audit(isCrossPlatform, jar, AnalyzerRun(status1, report))
         == Audit(isCrossPlatform, jar, AnalyzerRun(status2, report))
  {
  }
}

=== FILE: library_extension_compat.dfy ===
/** `LibraryExtensionCompat`: one view of the project's `android`
    extension over the two shapes Android Gradle Plugin versions give it.
    An extension that is a `BaseExtension` is read through that API (the
    older plugin's extension is also a `LibraryExtension`, but the
    `BaseExtension` case is tried first); a `LibraryExtension` that is not
    a `BaseExtension` is read through the newer API and the
    `androidComponents` extension; anything else is rejected. */
module LibraryExtensionCompat {
  import opened Base
  import opened Text

  /** The minimum SDK level used when none is configured. */
  const DefaultMinSdk := 21

  const AndroidPluginNotFound := "Android plugin not found"
  const CompileSdkVersionNotFound := "compileSdkVersion not found"
  const NotALibraryModule := "Android plugin found, but it's not a library module"
  const ComponentsNotFound := "LibraryAndroidComponentsExtension not found"
  const UnknownExtensionType := "Unknown Android extension type"
  const CollectionIsEmpty := "Collection is empty."
  const CollectionHasMoreThanOne := "Collection has more than one element."

  /** The relative location of the resources of a `LibraryExtension` project. */
  const MainResPath := "src/main/res"

  function ResourceDirectoryNotFound(path: string): string {
    "Resource directory not found at " + path + ". "
    + "Resources are only supported in src/main/res. "
    + "If this extension has no resources, remove requiresResources = true."
  }

  /** The shapes of the `android` extension, with the values the accessors
      read from them; `minSdk` is the default config's. `mainResSrcDirs`
      lists the `main` source set's resource directories, a set in the
      Android Gradle Plugin, so the sequence holds no duplicates. */
  datatype AndroidExtension =
    | BaseExtension(
        compileSdkVersion: Option<string>,
        minSdk: Option<int>,
        buildToolsVersion: string,
        adbExecutable: string,
        bootClasspath: seq<string>,
        sdkDirectory: string,
        mainResSrcDirs: seq<string>)
    | LibraryExtension(compileSdk: Option<int>, minSdk: Option<int>, buildToolsVersion: string)
    | OtherExtension

  /** The SDK components of the `androidComponents` extension. */
  datatype SdkComponents = SdkComponents(adb: string, bootClasspath: seq<string>, sdkDirectory: string)

  /** What the compat layer reads from the project. */
  datatype Project = Project(
    android: Option<AndroidExtension>,
    androidComponents: Option<SdkComponents>,
    projectDirectory: string,
    existingDirectories: set<string>)

  datatype Compat = Compat(project: Project, android: AndroidExtension)

  /** Construction: the `android` extension must exist. */
  function NewCompat(p: Project): (r: Result<Compat>)
    ensures r.Err? <==> p.android.None?
    ensures r.Err? ==> r.message == AndroidPluginNotFound
    ensures r.Ok? ==> r.value.project == p && Some(r.value.android) == p.android
  {
    match p.android
    case None => Err(AndroidPluginNotFound)
    case Some(android) => Ok(Compat(p, android))
  }

  /** `compileSdk` as written: on a `LibraryExtension` the number is put into
      a string template, which prints an unset number as `null`. */
  function CompileSdkAsWritten(c: Compat): (r: Result<string>)
    ensures c.android.OtherExtension? ==> r == Err(NotALibraryModule)
    ensures c.android.BaseExtension? ==>
              (r.Ok? <==> c.android.compileSdkVersion.Some?)
              && (r.Ok? ==> r.value == c.android.compileSdkVersion.value)
              && (r.Err? ==> r.message == CompileSdkVersionNotFound)
    ensures c.android.LibraryExtension? ==> r.Ok? && |r.value| > 8 && r.value[..8] == "android-"
    ensures c.android.LibraryExtension? && c.android.compileSdk.Some? ==>
              IsIntLiteral(r.value[8..]) && ParseInt(r.value[8..]) == c.android.compileSdk.value
    ensures c.android.LibraryExtension? && c.android.compileSdk.None? ==> r.value[8..] == "null"
  {
    match c.android
    case BaseExtension(version, _, _, _, _, _, _) =>
      if version.Some? then Ok(version.value) else Err(CompileSdkVersionNotFound)
    case LibraryExtension(sdk, _, _) =>
      if sdk.Some? then
        var digits := IntToString(sdk.value);
        ParseIntToString(sdk.value);
        assert ("android-" + digits)[8..] == digits;
        Ok("android-" + digits)
      else
        assert ("android-" + "null")[8..] == "null";
        Ok("android-" + "null")
    case OtherExtension => Err(NotALibraryModule)
  }

  /** A `LibraryExtension` without a compile SDK yields the platform
      identifier `android-null` where the corrected getter fails. */
  lemma CompileSdkAsWrittenPrintsNull(p: Project, minSdk: Option<int>, buildTools: string)
    ensures var c := Compat(p, LibraryExtension(None, minSdk, buildTools));
            && CompileSdkAsWritten(c) == Ok("android-null")
            && CompileSdk(c) == Err(CompileSdkVersionNotFound)
  {
    assert "android-" + "null" == "android-null";
  }

  /** `compileSdk`: the `BaseExtension` identifier, or `android-` followed
      by the `LibraryExtension`'s SDK number; an unset value fails on both
      shapes (the as-written getter only does so for `BaseExtension`). */
  function CompileSdk(c: Compat): (r: Result<string>)
    ensures c.android.OtherExtension? ==> r == Err(NotALibraryModule)
    ensures c.android.BaseExtension? ==>
              (r.Ok? <==> c.android.compileSdkVersion.Some?)
              && (r.Ok? ==> r.value == c.android.compileSdkVersion.value)
              && (r.Err? ==> r.message == CompileSdkVersionNotFound)
    ensures c.android.LibraryExtension? ==>
              (r.Ok? <==> c.android.compileSdk.Some?)
              && (r.Ok? ==> |r.value| > 8 && r.value[..8] == "android-"
                            && IsIntLiteral(r.value[8..]) && ParseInt(r.value[8..]) == c.android.compileSdk.value)
              && (r.Err? ==> r.message == CompileSdkVersionNotFound)
    ensures r.Ok? ==> r == CompileSdkAsWritten(c)
  {
    match c.android
    case BaseExtension(version, _, _, _, _, _, _) =>
      if version.Some? then Ok(version.value) else Err(CompileSdkVersionNotFound)
    case LibraryExtension(sdk, _, _) =>
      if sdk.Some? then
        var digits := IntToString(sdk.value);
        ParseIntToString(sdk.value);
        assert ("android-" + digits)[8..] == digits;
        Ok("android-" + digits)
      else Err(CompileSdkVersionNotFound)
    case OtherExtension => Err(NotALibraryModule)
  }

  /** `minSdk`: the configured level, or 21 when none is configured. */
  function MinSdk(c: Compat): (r: Result<int>)
    ensures r.Err? <==> c.android.OtherExtension?
    ensures r.Err? ==> r.message == NotALibraryModule
    ensures r.Ok? && c.android.minSdk.Some? ==> r.value == c.android.minSdk.value
    ensures r.Ok? && c.android.minSdk.None? ==> r.value == DefaultMinSdk
  {
    match c.android
    case BaseExtension(_, minSdk, _, _, _, _, _) => Ok(minSdk.GetOr(DefaultMinSdk))
    case LibraryExtension(_, minSdk, _) => Ok(minSdk.GetOr(DefaultMinSdk))
    case OtherExtension => Err(NotALibraryModule)
  }

  /** `buildToolsVersion`: passed through from either shape. */
  function BuildToolsVersion(c: Compat): (r: Result<string>)
    ensures r.Err? <==> c.android.OtherExtension?
    ensures r.Err? ==> r.message == NotALibraryModule
    ensures r.Ok? ==> r.value == c.android.buildToolsVersion
  {
    match c.android
    case BaseExtension(_, _, buildTools, _, _, _, _) => Ok(buildTools)
    case LibraryExtension(_, _, buildTools) => Ok(buildTools)
    case OtherExtension => Err(NotALibraryModule)
  }

  /** A value the newer API reads from the `androidComponents` extension. */
  function FromComponents<T>(c: Compat, read: SdkComponents -> T): (r: Result<T>)
    ensures r.Err? <==> c.project.androidComponents.None?
    ensures r.Err? ==> r.message == ComponentsNotFound
    ensures r.Ok? ==> r.value == read(c.project.androidComponents.value)
  {
    match c.project.androidComponents
    case None => Err(ComponentsNotFound)
    case Some(components) => Ok(read(components))
  }

  /** `adb`: the debug-bridge executable. */
  function Adb(c: Compat): (r: Result<string>)
    ensures c.android.BaseExtension? ==> r == Ok(c.android.adbExecutable)
    ensures c.android.LibraryExtension? ==>
              (r.Ok? <==> c.project.androidComponents.Some?)
              && (r.Ok? ==> r.value == c.project.androidComponents.value.adb)
              && (r.Err? ==> r.message == ComponentsNotFound)
    ensures c.android.OtherExtension? ==> r == Err(UnknownExtensionType)
  {
    match c.android
    case BaseExtension(_, _, _, adb, _, _, _) => Ok(adb)
    case LibraryExtension(_, _, _) => FromComponents(c, (s: SdkComponents) => s.adb)
    case OtherExtension => Err(UnknownExtensionType)
  }

  /** `bootClasspath`: the platform API jars. */
  function BootClasspath(c: Compat): (r: Result<seq<string>>)
    ensures c.android.BaseExtension? ==> r == Ok(c.android.bootClasspath)
    ensures c.android.LibraryExtension? ==>
              (r.Ok? <==> c.project.androidComponents.Some?)
              && (r.Ok? ==> r.value == c.project.androidComponents.value.bootClasspath)
              && (r.Err? ==> r.message == ComponentsNotFound)
    ensures c.android.OtherExtension? ==> r == Err(UnknownExtensionType)
  {
    match c.android
    case BaseExtension(_, _, _, _, bootClasspath, _, _) => Ok(bootClasspath)
    case LibraryExtension(_, _, _) => FromComponents(c, (s: SdkComponents) => s.bootClasspath)
    case OtherExtension => Err(UnknownExtensionType)
  }

  /** `sdkDirectory`: the Android SDK's location. */
  function SdkDirectory(c: Compat): (r: Result<string>)
    ensures c.android.BaseExtension? ==> r == Ok(c.android.sdkDirectory)
    ensures c.android.LibraryExtension? ==>
              (r.Ok? <==> c.project.androidComponents.Some?)
              && (r.Ok? ==> r.value == c.project.androidComponents.value.sdkDirectory)
              && (r.Err? ==> r.message == ComponentsNotFound)
    ensures c.android.OtherExtension? ==> r == Err(UnknownExtensionType)
  {
    match c.android
    case BaseExtension(_, _, _, _, _, sdkDirectory, _) => Ok(sdkDirectory)
    case LibraryExtension(_, _, _) => FromComponents(c, (s: SdkComponents) => s.sdkDirectory)
    case OtherExtension => Err(UnknownExtensionType)
  }

  /** Kotlin's `single()` on a collection (here the directories of a set,
      listed without duplicates). */
  function Single(dirs: seq<string>): (r: Result<string>)
    ensures r.Ok? <==> |dirs| == 1
    ensures r.Ok? ==> r.value == dirs[0]
    ensures |dirs| == 0 ==> r == Err(CollectionIsEmpty)
    ensures |dirs| > 1 ==> r == Err(CollectionHasMoreThanOne)
  {
    if |dirs| == 0 then Err(CollectionIsEmpty)
    else if |dirs| > 1 then Err(CollectionHasMoreThanOne)
    else Ok(dirs[0])
  }

  /** Where `LibraryExtension` projects keep their resources. */
  function MainResDirectory(p: Project): string {
    p.projectDirectory + "/" + MainResPath
  }

  /** `mainResSrcDir`: the single `main` resource directory of a
      `BaseExtension`; always `src/main/res` for a `LibraryExtension`,
      which must exist. */
  function MainResSrcDir(c: Compat): (r: Result<string>)
    ensures c.android.BaseExtension? ==> r == Single(c.android.mainResSrcDirs)
    ensures c.android.LibraryExtension? ==>
              (r.Ok? <==> MainResDirectory(c.project) in c.project.existingDirectories)
              && (r.Ok? ==> r.value == MainResDirectory(c.project))
              && (r.Err? ==> Contains(r.message, MainResDirectory(c.project)))
    ensures c.android.OtherExtension? ==> r == Err(UnknownExtensionType)
  {
    match c.android
    case BaseExtension(_, _, _, _, _, _, dirs) => Single(dirs)
    case LibraryExtension(_, _, _) =>
      var dir := MainResDirectory(c.project);
      if dir !in c.project.existingDirectories then
        var message := ResourceDirectoryNotFound(dir);
        assert OccursAt(message, dir, |"Resource directory not found at "|);
        Err(message)
      else Ok(dir)
    case OtherExtension => Err(UnknownExtensionType)
  }

  /** On an extension of neither shape every accessor fails. */
  lemma OtherExtensionRejected(p: Project)
    ensures var c := Compat(p, OtherExtension);
            && CompileSdk(c).Err? && MinSdk(c).Err? && BuildToolsVersion(c).Err?
            && Adb(c).Err? && BootClasspath(c).Err? && SdkDirectory(c).Err? && MainResSrcDir(c).Err?
  {
  }
}

=== FILE: plugin_name.dfy ===
/** The state the packaging tasks share, and the two-tier lookup of the
    plugin's entry-class name: the in-memory value if this build already
    has one, otherwise the text of the `pluginClass` side-channel file a
    compile (of this build or an earlier one) left behind, otherwise unset. */
module PluginName {
  import opened Base

  /** What the tasks read and write.
      - `pluginClassName`: the in-memory name (the extension's or the task's property);
      - `pluginClassFile`: the contents of `intermediates/pluginClass`, `None` if the file does not exist;
      - `jarFileSize`: the recorded size of the cross-platform jar;
      - `portableJar`: the contents of the cross-platform jar copy, `None` if it does not exist. */
  datatype PluginState = PluginState(
    pluginClassName: Option<string>,
    pluginClassFile: Option<string>,
    jarFileSize: Option<nat>,
    portableJar: Option<Bytes>)

  /** The reference definition of the lookup. */
  function ResolveName(inMemory: Option<string>, sideChannel: Option<string>): (r: Option<string>)
    ensures inMemory.Some? ==> r == inMemory
    ensures inMemory.None? ==> r == sideChannel
  {
    match inMemory
    case Some(_) => inMemory
    case None => sideChannel
  }

  /** The lookup applied to a state: only the in-memory name may change. */
  function WithResolvedName(st: PluginState): (r: PluginState)
    ensures r.pluginClassName == ResolveName(st.pluginClassName, st.pluginClassFile)
    ensures r.pluginClassFile == st.pluginClassFile
    ensures r.jarFileSize == st.jarFileSize && r.portableJar == st.portableJar
  {
    st.(pluginClassName := ResolveName(st.pluginClassName, st.pluginClassFile))
  }

  /** The lookup yields a name exactly when one of the tiers holds one,
      and it never invents one: the result is one of the two tiers. */
  lemma ResolveNameTiers(inMemory: Option<string>, sideChannel: Option<string>)
    ensures ResolveName(inMemory, sideChannel).Some? <==> (inMemory.Some? || sideChannel.Some?)
    ensures ResolveName(inMemory, sideChannel) in {inMemory, sideChannel}
  {
  }

  /** Looking up a second time changes nothing. */
  lemma WithResolvedNameIdempotent(st: PluginState)
    ensures WithResolvedName(WithResolvedName(st)) == WithResolvedName(st)
  {
  }
}

=== FILE: tasks.dfy ===
/** The decisions `registerTasks` wires into a plugin project: the root
    `makePluginsJson` task registered once, the name read back from the
    side-channel file, the cross-platform jar copy, what `make` depends
    on, how the archive is named and which resource entries it merges.
    The Gradle engine that schedules the tasks is not modelled; each task
    action is a function on the shared `PluginState`. */
module Tasks {
  import opened Base
  import opened PluginName
  import Text
  import CompileDex
  import CompilePluginJar
  import EnsureJarCompatibility

  const TaskGroup := "cloudstream"

  /** The `cloudstream { }` flags the wiring reads. The extension's
      `pluginClassName` and `jarFileSize` live in `PluginState`. */
  datatype CloudstreamExtension = CloudstreamExtension(isCrossPlatform: bool, requiresResources: bool)

  /** A plugin project: its name and its (absolute) build directory. */
  datatype PluginProject = PluginProject(name: string, buildDirectory: string)

  function BuildFile(buildDirectory: string, relative: string): string {
    buildDirectory + "/" + relative
  }

  /** `<build>/<project>.jar`, written by `compilePluginJar` and audited by
      `ensureJarCompatibility`. */
  function PortableJarPath(p: PluginProject): string {
    BuildFile(p.buildDirectory, p.name + ".jar")
  }

  // ---- The root project's `makePluginsJson` task ----

  const PluginsJsonTask := "makePluginsJson"

  /** A registered task: its name, group, output file and whether it is
      always considered out of date. */
  datatype TaskEntry = TaskEntry(name: string, group: string, outputFile: string, alwaysOutOfDate: bool)

  function CountNamed(tasks: seq<TaskEntry>, name: string): nat {
    if |tasks| == 0 then 0
    else (if tasks[0].name == name then 1 else 0) + CountNamed(tasks[1..], name)
  }

  lemma {:induction false} CountNamedAppend(a: seq<TaskEntry>, b: seq<TaskEntry>, name: string)
    ensures CountNamed(a + b, name) == CountNamed(a, name) + CountNamed(b, name)
  {
    if |a| == 0 {
      assert a + b == b;
    } else {
      assert (a + b)[0] == a[0];
      assert (a + b)[1..] == a[1..] + b;
      CountNamedAppend(a[1..], b, name);
    }
  }

  /** Registration on the root project, guarded by `findByName`: `makePluginsJson`
      is added only when no task of that name exists, and then always
      out of date and writing `plugins.json` in the root build directory. */
  function RegisterPluginsJson(rootTasks: seq<TaskEntry>, rootBuildDirectory: string): (r: seq<TaskEntry>)
    ensures rootTasks <= r && |r| <= |rootTasks| + 1
    ensures CountNamed(r, PluginsJsonTask) == if CountNamed(rootTasks, PluginsJsonTask) == 0 then 1
                                              else CountNamed(rootTasks, PluginsJsonTask)
    ensures CountNamed(rootTasks, PluginsJsonTask) > 0 ==> r == rootTasks
    ensures CountNamed(rootTasks, PluginsJsonTask) == 0 ==>
              |r| == |rootTasks| + 1 &&
              r[|r| - 1] == TaskEntry(PluginsJsonTask, TaskGroup, BuildFile(rootBuildDirectory, "plugins.json"), true)
  {
    if CountNamed(rootTasks, PluginsJsonTask) > 0 then rootTasks
    else
      var entry := TaskEntry(PluginsJsonTask, TaskGroup, BuildFile(rootBuildDirectory, "plugins.json"), true);
      CountNamedAppend(rootTasks, [entry], PluginsJsonTask);
      assert CountNamed([entry], PluginsJsonTask) == 1 + CountNamed([], PluginsJsonTask);
      rootTasks + [entry]
  }

  /** `registerTasks` run for `n` plugin projects of one build. */
  function RegisterForProjects(n: nat, rootTasks: seq<TaskEntry>, rootBuildDirectory: string): seq<TaskEntry> {
    if n == 0 then rootTasks
    else RegisterForProjects(n - 1, RegisterPluginsJson(rootTasks, rootBuildDirectory), rootBuildDirectory)
  }

  /** However many plugin projects a build has, the root ends up with
      exactly one `makePluginsJson` task. */
  lemma {:induction false} RegisteredOnce(n: nat, rootTasks: seq<TaskEntry>, rootBuildDirectory: string)
    requires n > 0
    requires CountNamed(rootTasks, PluginsJsonTask) <= 1
    ensures CountNamed(RegisterForProjects(n, rootTasks, rootBuildDirectory), PluginsJsonTask) == 1
  {
    var next := RegisterPluginsJson(rootTasks, rootBuildDirectory);
    if n > 1 {
      RegisteredOnce(n - 1, next, rootBuildDirectory);
    }
  }

  // ---- Reading the name back from the side-channel file ----

  /** The first action of `compilePluginJar`, repeated verbatim as the first
      action of `make`: keep an in-memory name, else read the file. */
  function ReadBackName(st: PluginState): PluginState {
    if st.pluginClassName == None then
      if st.pluginClassFile.Some? then st.(pluginClassName := Some(st.pluginClassFile.value)) else st
    else st
  }

  /** Both `registerTasks` copies compute the two-tier lookup, and so
      agree with `CompilePluginJarTask`. */
  lemma ReadBackIsLookup(st: PluginState, hasCrossPlatformSupport: bool, jarInput: Bytes)
    ensures ReadBackName(st) == WithResolvedName(st)
    ensures ReadBackName(st).pluginClassName
         == CompilePluginJar.CompileJar(hasCrossPlatformSupport, st, jarInput).pluginClassName
  {
  }

  // ---- `compilePluginJar` as registered by `registerTasks` ----

  /** The ad-hoc `compilePluginJar` task. `fullJar` is the single output of
      `createFullJarDebug`, `None` when that task does not exist. */
  function CompilePluginJarAction(ext: CloudstreamExtension, st: PluginState, fullJar: Option<Bytes>)
    : (r: PluginState)
    ensures r.pluginClassName == ResolveName(st.pluginClassName, st.pluginClassFile)
    ensures r.pluginClassFile == st.pluginClassFile
    ensures !ext.isCrossPlatform || fullJar.None? ==>
              r.portableJar == st.portableJar && r.jarFileSize == st.jarFileSize
    ensures ext.isCrossPlatform && fullJar.Some? ==>
              r.portableJar == fullJar && r.jarFileSize == Some(|fullJar.value|)
  {
    var named := ReadBackName(st);
    if !ext.isCrossPlatform then named
    else match fullJar
      case None => named
      case Some(jar) => named.(portableJar := Some(jar), jarFileSize := Some(|jar|))
  }

  /** The registered task and the `CompilePluginJarTask` class do the same
      thing whenever there is a jar to copy. */
  lemma CompilePluginJarImplementationsAgree(ext: CloudstreamExtension, st: PluginState, jar: Bytes)
    ensures CompilePluginJarAction(ext, st, Some(jar)) == CompilePluginJar.CompileJar(ext.isCrossPlatform, st, jar)
  {
  }

  // ---- `ensureJarCompatibility` ----

  /** The audit task as configured: it looks at `<build>/<project>.jar`. */
  function AuditAction(ext: CloudstreamExtension, p: PluginProject, st: PluginState,
                       analyzer: EnsureJarCompatibility.AnalyzerRun): EnsureJarCompatibility.AuditOutcome
  {
    EnsureJarCompatibility.Audit(
      ext.isCrossPlatform, EnsureJarCompatibility.Jar(PortableJarPath(p), st.portableJar.Some?), analyzer)
  }

  /** After `compilePluginJar` copied a jar, the audit (which depends on it)
      finds the jar, and its outcome is the classification of the report. */
  lemma AuditSeesCopiedJar(ext: CloudstreamExtension, p: PluginProject, st: PluginState, jar: Bytes,
                           analyzer: EnsureJarCompatibility.AnalyzerRun)
    requires ext.isCrossPlatform
    ensures var audited := AuditAction(ext, p, CompilePluginJarAction(ext, st, Some(jar)), analyzer);
            && (audited.Warned? <==> Text.AllWhitespace(analyzer.report))
            && (audited.Failed? <==> Text.Contains(analyzer.report, EnsureJarCompatibility.AndroidModulePrefix))
            && (audited.Passed? <==> !Text.AllWhitespace(analyzer.report)
                                     && !Text.Contains(analyzer.report, EnsureJarCompatibility.AndroidModulePrefix))
  {
  }

  // ---- `make` ----

  /** The tasks `make` depends on. */
  function MakeDependencies(ext: CloudstreamExtension): (r: set<string>)
    ensures "compileDex" in r
    ensures "compilePluginJar" in r <==> ext.isCrossPlatform
    ensures "compileResources" in r <==> ext.requiresResources
    ensures r <= {"compileDex", "compilePluginJar", "compileResources"}
  {
    {"compileDex"}
    + (if ext.isCrossPlatform then {"compilePluginJar"} else {})
    + (if ext.requiresResources then {"compileResources"} else {})
  }

  /** The settings `make` gives its zip archive. */
  datatype ArchiveSpec = ArchiveSpec(
    baseName: string,
    version: string,
    extension: string,
    destinationDirectory: string,
    preserveFileTimestamps: bool)

  function MakeArchiveSpec(p: PluginProject): ArchiveSpec {
    ArchiveSpec(p.name, "", "cs3", p.buildDirectory, false)
  }

  /** Gradle's archive file name: the base name, then `-version` when the
      version is not empty, then `.extension` when that is not empty. */
  function ArchiveFileName(spec: ArchiveSpec): string {
    spec.baseName
    + (if spec.version == "" then "" else "-" + spec.version)
    + (if spec.extension == "" then "" else "." + spec.extension)
  }

  function ArchivePath(spec: ArchiveSpec): string {
    BuildFile(spec.destinationDirectory, ArchiveFileName(spec))
  }

  /** The package is `<build>/<project>.cs3`, without version and without
      file timestamps; different projects get different archive names. */
  lemma MakeArchiveName(p: PluginProject, q: PluginProject)
    ensures ArchivePath(MakeArchiveSpec(p)) == p.buildDirectory + "/" + p.name + ".cs3"
    ensures !MakeArchiveSpec(p).preserveFileTimestamps
    ensures ArchiveFileName(MakeArchiveSpec(p)) == ArchiveFileName(MakeArchiveSpec(q)) ==> p.name == q.name
  {
    var n := ArchiveFileName(MakeArchiveSpec(p));
    var m := ArchiveFileName(MakeArchiveSpec(q));
    assert n == p.name + ".cs3";
    assert m == q.name + ".cs3";
    if n == m {
      assert |p.name| == |q.name|;
      assert p.name == n[..|p.name|] == m[..|q.name|] == q.name;
    }
  }

  /** An archive entry. */
  datatype ZipEntry = ZipEntry(path: string, content: Bytes)

  /** The platform manifest embedded in the compiled resources. */
  const EmbeddedManifest := "AndroidManifest.xml"

  /** The copy filter: every entry except the top-level embedded manifest. */
  function WithoutEmbeddedManifest(entries: seq<ZipEntry>): (r: seq<ZipEntry>)
    ensures forall e :: e in r <==> e in entries && e.path != EmbeddedManifest
    ensures |r| <= |entries|
    ensures forall e: ZipEntry :: e.path != EmbeddedManifest ==> multiset(r)[e] == multiset(entries)[e]
    ensures (forall k :: 0 <= k < |entries| ==> entries[k].path != EmbeddedManifest) ==> r == entries
  {
    if |entries| == 0 then []
    else
      assert entries == [entries[0]] + entries[1..];
      if entries[0].path == EmbeddedManifest then WithoutEmbeddedManifest(entries[1..])
      else [entries[0]] + WithoutEmbeddedManifest(entries[1..])
  }

  /** What the last action of `compileResources` adds to `make`: the
      entries of `res.apk` when that file exists, minus its manifest. */
  function ResourceEntries(resApk: Option<seq<ZipEntry>>): (r: seq<ZipEntry>)
    ensures resApk.None? ==> r == []
    ensures forall e :: e in r <==> resApk.Some? && e in resApk.value && e.path != EmbeddedManifest
  {
    match resApk
    case None => []
    case Some(entries) => WithoutEmbeddedManifest(entries)
  }

  /** The first action of `make`: read the name back, then write the
      manifest, whose entry class is the resulting in-memory name (the JSON
      rendering, which drops absent fields, is not modelled). */
  function PrepareMake(st: PluginState): (r: (PluginState, Option<string>))
    ensures r.1 == ResolveName(st.pluginClassName, st.pluginClassFile)
    ensures r.0 == WithResolvedName(st)
  {
    var named := ReadBackName(st);
    (named, named.pluginClassName)
  }

  /** The entries `make` zips: the manifest, the dex file and the merged
      resources. Only the last action of `compileResources` adds resources,
      and that task runs for `make` only when the extension requires
      resources, so a `res.apk` left by an earlier build is not merged
      otherwise. */
  function MakeEntries(ext: CloudstreamExtension, manifest: Bytes, dex: Bytes, resApk: Option<seq<ZipEntry>>)
    : (r: seq<ZipEntry>)
    ensures |r| >= 2 && r[0] == ZipEntry("manifest.json", manifest) && r[1] == ZipEntry("classes.dex", dex)
    ensures !ext.requiresResources ==> |r| == 2
    ensures forall k :: 2 <= k < |r| ==> r[k] in ResourceEntries(resApk) && r[k].path != EmbeddedManifest
    ensures forall e :: e in r[2..] <==>
              ext.requiresResources && resApk.Some? && e in resApk.value && e.path != EmbeddedManifest
  {
    var merged := if "compileResources" in MakeDependencies(ext) then ResourceEntries(resApk) else [];
    [ZipEntry("manifest.json", manifest), ZipEntry("classes.dex", dex)] + merged
  }

  /** What the archive holds, in terms of the inputs alone: the manifest,
      the dex file, and, when the extension requires resources, exactly
      those entries of `res.apk` (when it exists) that are not its embedded
      manifest; nothing else. */
  lemma ArchiveContents(ext: CloudstreamExtension, manifest: Bytes, dex: Bytes, resApk: Option<seq<ZipEntry>>,
                        e: ZipEntry)
    ensures e in MakeEntries(ext, manifest, dex, resApk) <==>
              || e == ZipEntry("manifest.json", manifest)
              || e == ZipEntry("classes.dex", dex)
              || (ext.requiresResources && resApk.Some? && e in resApk.value && e.path != EmbeddedManifest)
  {
    var r := MakeEntries(ext, manifest, dex, resApk);
    assert r == r[..2] + r[2..];
    assert r[..2] == [ZipEntry("manifest.json", manifest), ZipEntry("classes.dex", dex)];
  }

  // ---- One packaging run ----

  /** `compileDex` (whose own name property starts unset), then
      `compilePluginJar` when cross-platform support is on, then the first
      action of `make`. `st` holds the extension's name and the files left
      by earlier builds. Yields the final state and the manifest's entry
      class, or the scan's failure. */
  function Package(ext: CloudstreamExtension, classes: seq<CompileDex.ClassRecord>, st: PluginState,
                   fullJar: Option<Bytes>): Run<(PluginState, Option<string>)>
  {
    match CompileDex.ScanClasses(classes, st.(pluginClassName := None), true)
    case Aborted(s, message) => Aborted((st.(pluginClassFile := s.pluginClassFile), None), message)
    case Completed(s) =>
      var shared := st.(pluginClassFile := s.pluginClassFile);
      var jarred := if ext.isCrossPlatform then CompilePluginJarAction(ext, shared, fullJar) else shared;
      Completed(PrepareMake(jarred))
  }

  /** Packaging fails exactly when the classes carry two or more markers. */
  lemma PackageFailsIff(ext: CloudstreamExtension, classes: seq<CompileDex.ClassRecord>, st: PluginState,
                        fullJar: Option<Bytes>)
    ensures CompileDex.MarkerCount(classes) >= 2 <==> Package(ext, classes, st, fullJar).Aborted?
  {
    CompileDex.ScanOutcomes(classes, st.(pluginClassName := None), true);
  }

  /** A name set in the build script is what the manifest carries whenever
      packaging succeeds: the scan does not look at it, and both read-backs
      keep it, so it wins over the annotated class. */
  lemma PackagePresetNameWins(ext: CloudstreamExtension, classes: seq<CompileDex.ClassRecord>, st: PluginState,
                              fullJar: Option<Bytes>)
    requires st.pluginClassName.Some?
    requires CompileDex.MarkerCount(classes) <= 1
    ensures Package(ext, classes, st, fullJar).Completed?
    ensures Package(ext, classes, st, fullJar).state.1 == st.pluginClassName
  {
    CompileDex.ScanOutcomes(classes, st.(pluginClassName := None), true);
  }

  /** Without a marker and without a name in the build script, the
      manifest's entry class is whatever an earlier build left in the
      side-channel file (nothing on a clean build). */
  lemma PackageWithoutMarker(ext: CloudstreamExtension, classes: seq<CompileDex.ClassRecord>, st: PluginState,
                             fullJar: Option<Bytes>)
    requires st.pluginClassName.None?
    requires CompileDex.MarkerCount(classes) == 0
    ensures Package(ext, classes, st, fullJar).Completed?
    ensures Package(ext, classes, st, fullJar).state.1 == st.pluginClassFile
  {
    assert st.(pluginClassName := None) == st;
    assert st.(pluginClassFile := st.pluginClassFile) == st;
  }

  /** With one marker and no name in the build script, the manifest's
      entry class is the marked class's dotted name: the side-channel file
      written by the scan is what `make` reads back. */
  lemma PackageWithOneMarker(ext: CloudstreamExtension, classes: seq<CompileDex.ClassRecord>, st: PluginState,
                             fullJar: Option<Bytes>, i: int)
    requires st.pluginClassName.None?
    requires CompileDex.MarkerCount(classes) == 1
    requires 0 <= i < |classes| && CompileDex.Occurrences(classes[i]) > 0
    ensures Package(ext, classes, st, fullJar).Completed?
    ensures Package(ext, classes, st, fullJar).state.1 == Some(CompileDex.DottedName(classes[i].name))
  {
    assert st.(pluginClassName := None) == st;
    CompileDex.UniqueMarked(classes, i);
    CompileDex.ScanOutcomes(classes, st, true);
    var scanned := CompileDex.Detect(st, classes[i].name, true);
    assert CompileDex.ScanClasses(classes, st, true) == Completed(scanned);
    var shared := st.(pluginClassFile := scanned.pluginClassFile);
    assert shared.pluginClassName.None?;
    assert shared.pluginClassFile == Some(CompileDex.DottedName(classes[i].name));
    var jarred := if ext.isCrossPlatform then CompilePluginJarAction(ext, shared, fullJar) else shared;
    assert jarred.pluginClassFile == shared.pluginClassFile;
    assert ResolveName(jarred.pluginClassName, jarred.pluginClassFile) == shared.pluginClassFile;
    assert Package(ext, classes, st, fullJar) == Completed(PrepareMake(jarred));
  }
}

=== FILE: text.dfy ===
/** The few pieces of Kotlin's string library the build logic relies on:
    `trim()`, `in` on strings, `replace(Char, Char)` and `Int.toString()`. */
module Text {

  /** Kotlin's `Char.isWhitespace()` on the JVM: `Character.isWhitespace`
      or `Character.isSpaceChar`. */
  predicate IsWhitespace(c: char) {
    || ('\t' <= c <= '\r')
    || ('\U{1C}' <= c <= ' ')
    || c == '\U{A0}'
    || c == '\U{1680}'
    || ('\U{2000}' <= c <= '\U{200A}')
    || c == '\U{2028}'
    || c == '\U{2029}'
    || c == '\U{202F}'
    || c == '\U{205F}'
    || c == '\U{3000}'
  }

  predicate AllWhitespace(s: string) {
    forall k :: 0 <= k < |s| ==> IsWhitespace(s[k])
  }

  /** Length of the longest all-whitespace prefix of `s`. */
  function LeadingWhitespace(s: string): (n: nat)
    ensures n <= |s|
    ensures forall k :: 0 <= k < n ==> IsWhitespace(s[k])
    ensures n < |s| ==> !IsWhitespace(s[n])
  {
    if |s| == 0 || !IsWhitespace(s[0]) then 0 else 1 + LeadingWhitespace(s[1..])
  }

  /** Length of the longest all-whitespace suffix of `s`. */
  function TrailingWhitespace(s: string): (n: nat)
    ensures n <= |s|
    ensures forall k :: |s| - n <= k < |s| ==> IsWhitespace(s[k])
    ensures n < |s| ==> !IsWhitespace(s[|s| - 1 - n])
  {
    if |s| == 0 || !IsWhitespace(s[|s| - 1]) then 0
    else 1 + TrailingWhitespace(s[..|s| - 1])
  }

  /** Kotlin's `String.trim()`: the infix of `s` that starts after the
      leading whitespace and ends before the trailing whitespace. */
  function Trim(s: string): (r: string)
    ensures LeadingWhitespace(s) + |r| <= |s|
    ensures r == s[LeadingWhitespace(s)..LeadingWhitespace(s) + |r|]
    ensures forall k :: LeadingWhitespace(s) + |r| <= k < |s| ==> IsWhitespace(s[k])
    ensures r == [] || (!IsWhitespace(r[0]) && !IsWhitespace(r[|r| - 1]))
  {
    var rest := s[LeadingWhitespace(s)..];
    rest[..|rest| - TrailingWhitespace(rest)]
  }

  /** Trimming leaves nothing exactly when the string is all whitespace. */
  lemma TrimEmptyIff(s: string)
    ensures Trim(s) == [] <==> AllWhitespace(s)
  {
    var lead := LeadingWhitespace(s);
    if Trim(s) == [] {
      forall k | 0 <= k < |s| ensures IsWhitespace(s[k]) {
        assert k < lead || lead + |Trim(s)| <= k;
      }
    }
  }

  predicate OccursAt(s: string, p: string, i: int) {
    0 <= i && i + |p| <= |s| && s[i..i + |p|] == p
  }

  /** Kotlin's `p in s` for strings. */
  predicate Contains(s: string, p: string) {
    exists i :: 0 <= i <= |s| && OccursAt(s, p, i)
  }

  /** An infix's own slices are slices of the whole string. */
  lemma InfixSlice(s: string, lead: nat, r: string, i: nat, n: nat)
    requires lead + |r| <= |s| && r == s[lead..lead + |r|]
    requires i + n <= |r|
    ensures r[i..i + n] == s[lead + i..lead + i + n]
  {
    forall j | i <= j < i + n ensures r[j] == s[lead + j] {
      assert r[j] == s[lead..lead + |r|][j];
    }
  }

  /** An occurrence of a pattern in the trimmed string is one in the string. */
  lemma OccurrenceFromTrimmed(s: string, p: string, i: int)
    requires OccursAt(Trim(s), p, i)
    ensures OccursAt(s, p, LeadingWhitespace(s) + i)
  {
    InfixSlice(s, LeadingWhitespace(s), Trim(s), i, |p|);
  }

  /** An occurrence of such a pattern in the string lies inside the trimmed part. */
  lemma OccurrenceInTrimmed(s: string, p: string, i: int)
    requires |p| > 0 && !IsWhitespace(p[0]) && !IsWhitespace(p[|p| - 1])
    requires OccursAt(s, p, i)
    ensures LeadingWhitespace(s) <= i && OccursAt(Trim(s), p, i - LeadingWhitespace(s))
  {
    var lead, r := LeadingWhitespace(s), Trim(s);
    assert s[i] == s[i..i + |p|][0] == p[0];
    assert s[i + |p| - 1] == s[i..i + |p|][|p| - 1] == p[|p| - 1];
    assert lead <= i;
    assert i + |p| <= lead + |r|;
    InfixSlice(s, lead, r, i - lead, |p|);
  }

  /** Trimming cannot create or destroy an occurrence of a pattern that
      starts and ends with a non-whitespace character. */
  lemma ContainsTrimmed(s: string, p: string)
    requires |p| > 0 && !IsWhitespace(p[0]) && !IsWhitespace(p[|p| - 1])
    ensures Contains(Trim(s), p) <==> Contains(s, p)
  {
    if Contains(Trim(s), p) {
      var i :| 0 <= i <= |Trim(s)| && OccursAt(Trim(s), p, i);
      OccurrenceFromTrimmed(s, p, i);
      assert OccursAt(s, p, LeadingWhitespace(s) + i);
    }
    if Contains(s, p) {
      var i :| 0 <= i <= |s| && OccursAt(s, p, i);
      OccurrenceInTrimmed(s, p, i);
      assert OccursAt(Trim(s), p, i - LeadingWhitespace(s));
    }
  }

  /** A string with no non-whitespace character contains no such pattern. */
  lemma NoPatternInWhitespace(s: string, p: string)
    requires AllWhitespace(s)
    requires |p| > 0 && !IsWhitespace(p[0])
    ensures !Contains(s, p)
  {
  }

  /** Kotlin's `s.replace(from, to)` on characters. */
  function ReplaceChar(s: string, from: char, to: char): (r: string)
    ensures |r| == |s|
    ensures from != to ==> forall k :: 0 <= k < |r| ==> r[k] != from
    ensures forall k :: 0 <= k < |s| && s[k] != from ==> r[k] == s[k]
    ensures forall k :: 0 <= k < |s| && s[k] == from ==> r[k] == to
  {
    if |s| == 0 then []
    else [if s[0] == from then to else s[0]] + ReplaceChar(s[1..], from, to)
  }

  // Decimal rendering of integers, as Kotlin's string templates print an `Int`.

  predicate IsDigit(c: char) {
    '0' <= c <= '9'
  }

  predicate AllDigits(s: string) {
    forall k :: 0 <= k < |s| ==> IsDigit(s[k])
  }

  function DigitChar(d: int): (c: char)
    requires 0 <= d < 10
    ensures IsDigit(c) && c as int - '0' as int == d
  {
    ('0' as int + d) as char
  }

  function NatToString(n: nat): (s: string)
    ensures |s| > 0 && AllDigits(s)
    ensures n >= 10 ==> s[0] != '0'
  {
    if n < 10 then [DigitChar(n)] else NatToString(n / 10) + [DigitChar(n % 10)]
  }

  function ParseNat(s: string): nat
    requires |s| > 0 && AllDigits(s)
  {
    if |s| == 1 then s[0] as int - '0' as int
    else 10 * ParseNat(s[..|s| - 1]) + (s[|s| - 1] as int - '0' as int)
  }

  lemma {:induction false} ParseNatToString(n: nat)
    ensures ParseNat(NatToString(n)) == n
  {
    if n >= 10 {
      var s := NatToString(n);
      var front := NatToString(n / 10);
      assert s[..|s| - 1] == front;
      ParseNatToString(n / 10);
    }
  }

  /** `Int.toString()`: an optional minus sign followed by the digits. */
  function IntToString(i: int): (s: string)
    ensures |s| > 0
    ensures (s[0] == '-') == (i < 0)
    ensures i < 0 ==> |s| > 1 && AllDigits(s[1..])
    ensures i >= 0 ==> AllDigits(s)
  {
    if i < 0 then "-" + NatToString(-i) else NatToString(i)
  }

  predicate IsIntLiteral(s: string) {
    || (|s| > 0 && AllDigits(s))
    || (|s| > 1 && s[0] == '-' && AllDigits(s[1..]))
  }

  function ParseInt(s: string): int
    requires IsIntLiteral(s)
  {
    if s[0] == '-' then 0 - ParseNat(s[1..]) else ParseNat(s)
  }

  /** Reading the decimal rendering back gives the number printed. */
  lemma ParseIntToString(i: int)
    ensures IsIntLiteral(IntToString(i))
    ensures ParseInt(IntToString(i)) == i
  {
    if i < 0 {
      assert IntToString(i)[1..] == NatToString(-i);
      ParseNatToString(-i);
    } else {
      ParseNatToString(i);
    }
  }
}
